=== FILE: README.md ===
# Hotel booking widget — a Dafny model of its booking and account logic

The hotel site keeps everything in the browser. It has a credential store of plaintext
accounts and a session for the signed-in guest. It also keeps an in-memory list of that
guest's bookings. That list is backed either by a realtime database (a `bookings` node
keyed by booking id) or by local storage (`hotelBookings`). This project models the
logic of `hotel-script.js` that handles accounts and bookings, as pure functions over
immutable values:

- **Accounts** (`accounts.dfy`, with `text.dfy` for JavaScript's `trim` and
  `toLowerCase`): the register form validates, normalises the e-mail, refuses duplicates
  and appends. The login form looks up the first account with the normalised e-mail and
  the exact password.
- **Booking list** (`bookings.dfy`): the booking record, the filter used on load (by
  owner) and on cancel (by id), and the stable newest-first sort of the database load.
- **Prices** (`pricing.dfy`): `calculateNights` in milliseconds, rounded up to days, with
  a zero-day stay charged as one. `calculateTotalPrice` is the unit price times that.
- **Catalog** (`catalog.dfy`): the fixed rooms and halls and the `find` by id.
- **Submission** (`lifecycle.dfy`): the submit handler checks the date order, then the
  capacity, then builds the record with id `'BK' + Date.now()` and prepends it.
- **Repository** (`repository.dfy`): `loadBookings` on both paths, the `saveBookings`
  write policy, `deleteBookingFromFirebase`, `cancelBooking` and `handleLogout`.
- **Flows** (`flows.dfy`): properties across handlers. A submitted booking appears in the
  next load from the store it was written to (exactly once when its id is new). A
  cancelled booking does not appear in the next load from the store it was removed from.
  Nothing appears after logout. When a database write or removal fails, the fallback
  writes local storage only. The next load still reads only the database, so the new
  booking is missing and the cancelled one comes back.

Dates are day numbers, and `None` stands for an empty date field. Prices are whole
numbers. Clock readings (`Date.now()` for the id, the creation instant) are parameters.
So are the database's presence and whether its writes succeed (`Backend`), the
confirmation dialog's answer, and the key order of a database snapshot.

In these places the model follows the code:

- The submit handler itself checks neither the session nor the hall event time. The
  booking dialog refuses to open without a session (hotel-script.js:395-402), and the
  event time is only an HTML `required` field.
- The capacity check is skipped when the item is not in the catalog. It is also skipped
  when the guest count is not a number (`NaN > capacity` is false). An empty date field
  passes the date check, because comparisons with an invalid date are false; the total is
  then 0.
- The stay length is the absolute day difference. A reversed range is never booked,
  because the date check rejects it first.
- The total uses the price carried by the form, not a fresh catalog lookup.
- On the local path, a missing `hotelBookings` key leaves the in-memory list as it was.
  It is not reset to empty.
- Saving on the local path overwrites `hotelBookings` with the in-memory list. That list
  holds only the signed-in customer's bookings, so other customers' locally saved bookings
  are dropped (`Flows.LocalSaveKeepsOnlyOwnBookings`).
- With the database present, a failed write or removal falls back to local storage
  (hotel-script.js:166, 185-186). `loadBookings` still reads only the database
  (hotel-script.js:107, 123-148), so that fallback is invisible to the next load
  (`Flows.FailedWriteThenLoadRemote`, `Flows.FailedRemoveThenLoadRemote`).

## Model

These plain definitions of the source's tests have no row of their own. Their meaning is
stated by the members that use them:
- `Accounts.FieldsFilled` (hotel-script.js:830), `Accounts.EmailTaken` (hotel-script.js:834)
  and `Accounts.Matches` (hotel-script.js:858) are the register checks and the login match.
  They are stated through `Register`'s three error iffs and `Login`'s success iff.
- `Bookings.Keeps` is the filter test (hotel-script.js:114, 137, 173, 185, 596), stated
  through `Filter`'s multiset clause.
- `Lifecycle.DatesOutOfOrder` is the date check (hotel-script.js:513), stated through
  `SubmitBooking`'s error clauses and `DateCheckFixesNights`.
- `Lifecycle.OverCapacity` is the capacity test (hotel-script.js:527), stated through
  `SubmitBooking` and `CapacityScenario`.
- `Repository.SessionEmail` and `Repository.SignedIn` are `getCurrentUserEmail` and its
  `if (userEmail)` test (hotel-script.js:94-101, 113, 136). They are stated through the
  signed-out clauses of the loads and `Flows.LogoutThenLoad`.

| member | source | states |
|---|---|---|
| Text.Trim | hotel-script.js:825-826 | the result has no leading or trailing JavaScript white space and is never longer than the input |
| Text.TrimStartDropsSpaces | hotel-script.js:825-826 | dropping leading white space leaves a suffix of the input, and everything dropped is white space |
| Text.TrimEndDropsSpaces | hotel-script.js:825-826 | dropping trailing white space leaves a prefix of the input, and everything dropped is white space |
| Text.TrimRemovesOnlySpaces | hotel-script.js:825-826 | the trimmed value is an infix of the input with only white space before and after it |
| Text.TrimIdempotent | hotel-script.js:825 | trimming an already trimmed value changes nothing |
| Text.ToLower | hotel-script.js:826 | same length, no upper-case letter left, every other character unchanged, each letter replaced by its lower-case form |
| Text.NormalizeEmail | hotel-script.js:826 | the normalised e-mail is trimmed and has no upper-case letter |
| Text.ToLowerSlice | hotel-script.js:826 | lower-casing a slice gives the same slice of the lower-cased string |
| Text.ToLowerKeepsAllSpaces | hotel-script.js:826 | lower-casing white space gives white space |
| Text.ToLowerKeepsSpacesAround | hotel-script.js:826 | lower-casing keeps an infix surrounded only by white space such an infix |
| Text.NormalizeEmailIsLoweredInfix | hotel-script.js:826 | the normalised e-mail is made of the input's own characters: it is an infix of the lower-cased input with only white space before and after it |
| Text.NormalizeEmailIdempotent | hotel-script.js:826 | normalising a normalised e-mail changes nothing, so stored e-mails compare equal to re-normalised input |
| Accounts.Register | hotel-script.js:822-848 | missing-fields error exactly when the trimmed name, the normalised e-mail or the password is empty; mismatch only after that check; duplicate only when both pass and the normalised e-mail is already stored; otherwise exactly one account `{trimmed name, normalised e-mail, password}` is appended after the unchanged existing accounts, and the session holds that name and e-mail |
| Accounts.FindAccount | hotel-script.js:858 | returns the index of the first account matching the e-mail and password, or nothing exactly when no account matches |
| Accounts.Login | hotel-script.js:851-869 | succeeds exactly when some account has the normalised e-mail and the same password; the session is the first such account's name and stored e-mail; every failure is the single invalid-credentials error |
| Accounts.RegisterKeepsEmailsUnique | hotel-script.js:833-836 | a store without duplicate e-mails keeps none after a registration |
| Accounts.RegisterThenLogin | hotel-script.js:836-841 | after registering, logging in with the password and any e-mail spelling with the same normalised form yields the registration's session |
| Accounts.FindAccountAfterAppend | hotel-script.js:836 | when no stored account matches, the first match after appending a matching account is that new account |
| Accounts.RegisterAnn | hotel-script.js:825-841 | registering "Ann" as `a@x.com` on an empty store creates exactly that account and session |
| Accounts.LoginIgnoresCaseScenario | hotel-script.js:854-861 | a stored `a@x.com` account signs in as `A@X.com` |
| Accounts.DuplicateEmailScenario | hotel-script.js:833-834 | registering `a@x.com` again is refused as a duplicate |
| Bookings.Filter | hotel-script.js:114 | keeps exactly the bookings meeting the criterion, each as many times as in the input |
| Bookings.FilterAppend | hotel-script.js:173 | filtering a concatenation is the concatenation of the filtered parts, so the kept bookings stay in their order |
| Bookings.FilterIdempotent | hotel-script.js:173 | filtering twice with one criterion equals filtering once |
| Bookings.WithoutId | hotel-script.js:596 | each booking with another id occurs as often as in the input, and none with that id remains; a list without that id is returned unchanged |
| Bookings.WithoutIdAppend | hotel-script.js:596 | removing an id from a concatenation removes it from each part, so the remaining bookings keep their order |
| Bookings.CancelTwiceIsOnce | hotel-script.js:185 | removing the same id twice gives the list removing it once gives |
| Bookings.NewestFirstPairwise | hotel-script.js:143 | in a newest-first list every booking is at least as new as every later one |
| Bookings.InsertKeepsOrder | hotel-script.js:143 | inserting into a newest-first list keeps it newest-first |
| Bookings.SortNewestFirst | hotel-script.js:143 | the result is ordered by booking date, newest first, and is a permutation of the input |
| Bookings.SortOfSorted | hotel-script.js:143 | a list already newest-first is returned unchanged, since the sort is stable |
| Pricing.CeilDiv | hotel-script.js:488 | the least whole number of steps covering the amount: enough steps, one fewer too few, and 0 for 0 |
| Pricing.CeilDivExact | hotel-script.js:488 | rounding up a whole number of days in milliseconds gives that number of days |
| Pricing.CalculateNights | hotel-script.js:484-490 | the stay is at least 1; for different dates it is their absolute day difference, and for the same date it is 1 |
| Pricing.NightsSymmetric | hotel-script.js:487 | swapping the dates does not change the stay length |
| Pricing.TotalPrice | hotel-script.js:469-481 | 0 while a date is missing; the unit price times the day difference for ordered dates, and the unit price for the same date |
| Catalog.CatalogWellFormed | hotel-script.js:71-83 | the four rooms and three halls have unique ids within each list and positive prices and capacities |
| Catalog.CatalogLookups | hotel-script.js:71-83 | looking up any listed room or hall by its own id finds exactly that item |
| Catalog.FindListed | hotel-script.js:524-525 | in a list with unique ids, `find` by an item's id returns that item |
| Catalog.FindItem | hotel-script.js:524-525 | a found item has the id and comes from the list, and nothing is found exactly when no item has the id |
| Catalog.FindItemIsFirst | hotel-script.js:524-525 | the found item is the first with that id: no earlier item has it |
| Catalog.LookupItem | hotel-script.js:523-525 | a found item has the requested id |
| Catalog.LookupItemSearchesKind | hotel-script.js:523-525 | rooms are searched for a room booking and halls otherwise; nothing is found exactly when no item of that list has the id |
| Lifecycle.DateCheckFixesNights | hotel-script.js:484-490 | two filled dates that pass the date check are charged for exactly their day difference, so the one-night minimum never applies to an accepted stay |
| Lifecycle.BookingId | hotel-script.js:534 | the id is `BK` followed by at least one more character |
| Lifecycle.Digits | hotel-script.js:534 | the decimal form of a number is non-empty, all digits, and has no leading zero |
| Lifecycle.DigitsInjective | hotel-script.js:534 | different numbers have different decimal forms |
| Lifecycle.BookingIdsDistinct | hotel-script.js:534 | bookings submitted at different milliseconds get different ids |
| Lifecycle.SubmitBooking | hotel-script.js:503-551 | a bad date range (two filled dates, check-out not after check-in) is reported first; capacity is exceeded only for a known item with a numeric guest count above its capacity, and the error quotes that capacity; on success the new booking is prepended and the rest of the list is unchanged, and the new booking is `Accepted`: it copies the form's type, item, item name, customer name, e-mail, phone, dates and guest count, has the `BK` id and the creation instant, no event time exactly when that field was empty and the form's event time otherwise, ordered dates when both are filled, a guest count within the item's capacity when the item is known and the count is a number, and the unit price times the day difference as total (0 when a date is missing) |
| Lifecycle.NewBooking | hotel-script.js:533-547 | the record copies every form field, takes the `BK` id from the clock and the creation instant, stores an empty event time as none, and totals the unit price times the nights when both dates are filled and in order, and 0 while a date is missing |
| Lifecycle.NewBookingAccepted | hotel-script.js:513-547 | the record built for a form that passes the date and capacity checks is an accepted booking for that form |
| Lifecycle.NewBookingPassesChecks | hotel-script.js:513-530 | a form that passes both checks yields a record with ordered dates when both are filled and a guest count within the capacity of a known item |
| Lifecycle.NewBookingPriced | hotel-script.js:469-481 | once the date check passes, the record's total is the unit price times the nights, or 0 while a date is missing |
| Lifecycle.CapacityScenario | hotel-script.js:527-530 | five guests in the four-guest room are refused with capacity 4 |
| Lifecycle.SameDayScenario | hotel-script.js:513-516 | a same-day stay is refused as a bad date range before capacity is checked |
| Repository.LoadLocal | hotel-script.js:107-121 | without a saved list the in-memory list is kept; signed out it is empty; signed in, each booking occurs as often as in the saved list if the customer owns it and not at all otherwise |
| Repository.LoadLocalAppend | hotel-script.js:114 | loading a saved concatenation loads each part in turn, so the customer's bookings keep their saved order |
| Repository.SnapshotList | hotel-script.js:130-133 | one booking per snapshot key, in key order |
| Repository.SnapshotHoldsNode | hotel-script.js:130-133 | the snapshot list holds exactly the bookings stored in the node |
| Repository.LoadRemote | hotel-script.js:123-148 | the loaded list is newest-first; it is empty for a null snapshot or no signed-in customer; otherwise each booking occurs as often as in the snapshot if the customer owns it and not at all otherwise |
| Repository.LoadBookings | hotel-script.js:104-149 | the local branch without a database; with one, a newest-first list that is empty when nobody is signed in and otherwise holds each of the signed-in customer's snapshot bookings as often as the snapshot does and nothing else, so exactly the customer's bookings stored in the database |
| Repository.SaveBookings | hotel-script.js:152-168 | without a database the whole list goes to local storage; with one only the first booking is written under its id, and a failed write sends the whole list to local storage instead; an empty list cannot be written to the database; bookings stay stored under their own ids |
| Repository.DeleteBooking | hotel-script.js:171-188 | a successful database removal deletes only that key and keeps the list; otherwise the list loses that id and is written to local storage |
| Repository.CancelBooking | hotel-script.js:590-603 | unconfirmed changes nothing; confirmed leaves the list that `WithoutId` gives, whichever store was used; the database loses exactly that key after a successful removal and is otherwise unchanged, and local storage receives the list unless the database removal succeeded |
| Repository.Logout | hotel-script.js:22-28 | no session and an empty booking list afterwards; accounts and stores unchanged |
| Flows.OnceIfIdsDistinct | hotel-script.js:130-133 | in a list with pairwise distinct ids a listed booking occurs exactly once |
| Flows.SubmitThenLoadLocal | hotel-script.js:550-551 | a booking saved locally, including after a failed database write, appears in the customer's next local load, once more than before and exactly once when its id is new |
| Flows.SubmitThenLoadRemote | hotel-script.js:160-161 | a booking written to the database appears exactly once in the customer's next database load |
| Flows.CancelThenLoadLocal | hotel-script.js:172-174 | after a confirmed cancellation on the local path, no booking with that id is loaded |
| Flows.LogoutThenLoad | hotel-script.js:25 | after logout a reload from either store yields the empty list |
| Flows.FailedWriteThenLoadRemote | hotel-script.js:152-168 | after a failed database write, a booking whose id was not in the database is missing from the customer's next load |
| Flows.FailedRemoveThenLoadRemote | hotel-script.js:171-188 | after a failed database removal, the customer's stored booking is back in their next load |
| Flows.LocalSaveKeepsOnlyOwnBookings | hotel-script.js:154 | after a local load and a new booking, local storage holds only that customer's bookings, and every other customer's saved booking is gone |

## Left out

- Rendering, modals, toasts, the navigation bar and the auth UI (`updateAuthUI`, session restore on page load) are not modelled; they hold no state beyond the session and lists modelled here.
- The booking dialog's own session check (hotel-script.js:395-402) and the HTML `required` attributes are UI guards outside the submit handler; they are not modelled.
- The database transport is not modelled: `onValue` re-firing on every change, its asynchronous callbacks and their interleaving, and the wait for the `firebaseReady` event (hotel-script.js:59-68). Success or failure of a write or removal is the `Backend` parameter.
- JSON encoding of local and session storage is not modelled. The stores are plain values. A malformed `hotelUsers` value reads as no accounts (hotel-script.js:811). A malformed `hotelBookings` value makes `JSON.parse` throw, and that case is not modelled.
- Repository.SnapshotList: records in the snapshot are taken with their own `id`. The `{ id: key, ... }` default for a record without one is not modelled, since every saved booking has an id.
- JavaScript `Date` parsing, time zones and ISO strings are not modelled. A date field is a day number read as UTC midnight. `bookingDate` is a millisecond count, and the sort compares those numbers.
- Prices are whole numbers; `parseFloat` of the price field is not modelled.
- The `guests` field: the record keeps the parsed guest count (`None` for `NaN`), where the code keeps the raw form text.
- Text.ToLower: only ASCII and Latin-1 upper-case letters are lowered; the rest of Unicode case mapping is not modelled.
- The PDF receipt (`downloadBookingPDF`, `loadImageAsBase64`) is a wrapper over a PDF library and a canvas, and is not modelled.
- Catalog images, descriptions and feature lists are display-only and are not modelled.

=== FILE: accounts.dfy ===
/**
 The credential store and the register / login form handlers. Accounts are kept as
 a list of plaintext records in the order they were created; the session holds the
 signed-in account's name and e-mail.
 */
module Accounts {
  import opened Results
  import opened Text

  /** One stored account, as the register form appends it to `hotelUsers`. */
  datatype User = User(name: string, email: string, password: string)

  /** The signed-in identity kept under `hotelGuestUser`. */
  datatype Session = Session(name: string, email: string)

  /** The messages the account forms show instead of signing in. */
  datatype AuthError = IncompleteFields | PasswordMismatch | EmailAlreadyExists | InvalidCredentials

  /** What a successful registration produces: the grown credential store and the new session. */
  datatype Registration = Registration(users: seq<User>, session: Session)

  /** Some stored account already uses `email`. */
  predicate EmailTaken(users: seq<User>, email: string) {
    exists u :: u in users && u.email == email
  }

  /** No two stored accounts share an e-mail. */
  predicate UniqueEmails(users: seq<User>) {
    forall i, j :: 0 <= i < j < |users| ==> users[i].email != users[j].email
  }

  /** The register form's first check: the trimmed name, the normalised e-mail and the password are all non-empty. */
  predicate FieldsFilled(name: string, email: string, password: string) {
    Trim(name) != [] && NormalizeEmail(email) != [] && password != []
  }

  /** The register form. Errors are reported in a fixed order: missing fields, then
      mismatched passwords, then an e-mail already in use. */
  function Register(users: seq<User>, name: string, email: string, password: string, confirm: string)
    : (r: Result<Registration, AuthError>)
    ensures r == Failure(IncompleteFields) <==> !FieldsFilled(name, email, password)
    ensures r == Failure(PasswordMismatch) <==> FieldsFilled(name, email, password) && password != confirm
    ensures r == Failure(EmailAlreadyExists) <==>
              && FieldsFilled(name, email, password) && password == confirm
              && EmailTaken(users, NormalizeEmail(email))
    ensures r != Failure(InvalidCredentials)
    ensures r.Success? ==>
              && |r.value.users| == |users| + 1
              && r.value.users[..|users|] == users
              && r.value.users[|users|] == User(Trim(name), NormalizeEmail(email), password)
              && r.value.session == Session(Trim(name), NormalizeEmail(email))
  {
    var n := Trim(name);
    var e := NormalizeEmail(email);
    if n == [] || e == [] || password == [] then Failure(IncompleteFields)
    else if password != confirm then Failure(PasswordMismatch)
    else if EmailTaken(users, e) then Failure(EmailAlreadyExists)
    else Success(Registration(users + [User(n, e, password)], Session(n, e)))
  }

  /** The login form's match: the stored e-mail equals the normalised input and the password is identical. */
  predicate Matches(u: User, email: string, password: string) {
    u.email == email && u.password == password
  }

  /** `users.find(...)`: the index of the first account matching `email` and `password`. */
  function FindAccount(users: seq<User>, email: string, password: string): (r: Option<nat>)
    ensures r.Some? ==> r.value < |users| && Matches(users[r.value], email, password)
    ensures r.Some? ==> forall k :: 0 <= k < r.value ==> !Matches(users[k], email, password)
    ensures r.None? <==> forall k :: 0 <= k < |users| ==> !Matches(users[k], email, password)
  {
    if users == [] then None
    else if Matches(users[0], email, password) then Some(0)
    else match FindAccount(users[1..], email, password)
      case None => None
      case Some(i) => Some(i + 1)
  }

  /** The login form. It succeeds exactly when some account has the normalised e-mail and
      the exact password; the session then holds the first such account's name and stored
      e-mail. An unknown e-mail and a wrong password give the same error. */
  function Login(users: seq<User>, email: string, password: string): (r: Result<Session, AuthError>)
    ensures r.Success? <==> exists u :: u in users && Matches(u, NormalizeEmail(email), password)
    ensures r.Success? ==> exists k :: && 0 <= k < |users|
                                       && Matches(users[k], NormalizeEmail(email), password)
                                       && r.value == Session(users[k].name, users[k].email)
                                       && forall j :: 0 <= j < k ==> !Matches(users[j], NormalizeEmail(email), password)
    ensures r.Failure? ==> r.error == InvalidCredentials
  {
    match FindAccount(users, NormalizeEmail(email), password)
    case None => Failure(InvalidCredentials)
    case Some(i) => Success(Session(users[i].name, users[i].email))
  }

  /** Registration never lets two accounts share an e-mail. */
  lemma RegisterKeepsEmailsUnique(users: seq<User>, name: string, email: string, password: string, confirm: string)
    requires UniqueEmails(users)
    requires Register(users, name, email, password, confirm).Success?
    ensures UniqueEmails(Register(users, name, email, password, confirm).value.users)
  {
    var users' := Register(users, name, email, password, confirm).value.users;
    forall i, j | 0 <= i < j < |users'|
      ensures users'[i].email != users'[j].email
    {
      if j == |users| {
        assert users'[i] in users;
      }
    }
  }

  /** Appending an account to a store in which nothing matches finds the new account if it matches. */
  lemma {:induction false} FindAccountAfterAppend(users: seq<User>, u: User, email: string, password: string)
    requires forall k :: 0 <= k < |users| ==> !Matches(users[k], email, password)
    requires Matches(u, email, password)
    ensures FindAccount(users + [u], email, password) == Some(|users|)
  {
    if users != [] {
      assert (users + [u])[1..] == users[1..] + [u];
      FindAccountAfterAppend(users[1..], u, email, password);
    }
  }

  /** A freshly registered account can sign in with its password and any spelling of its
      e-mail that normalises to the same address; the session is the one registration opened. */
  lemma RegisterThenLogin(users: seq<User>, name: string, email: string, password: string, login: string)
    requires Register(users, name, email, password, password).Success?
    requires NormalizeEmail(login) == NormalizeEmail(email)
    ensures Login(Register(users, name, email, password, password).value.users, login, password)
            == Success(Register(users, name, email, password, password).value.session)
  {
    var reg := Register(users, name, email, password, password).value;
    var e := NormalizeEmail(email);
    var u := User(Trim(name), e, password);
    assert reg.users == users + [u];
    assert !EmailTaken(users, e);
    forall k | 0 <= k < |users|
      ensures !Matches(users[k], e, password)
    {
      assert users[k] in users;
    }
    FindAccountAfterAppend(users, u, e, password);
  }

  /** `A@X.com` lower-cases to `a@x.com`. */
  lemma SampleLowerCase()
    ensures ToLower("A@X.com") == "a@x.com"
  {
    var up := ToLower("A@X.com");
    assert up[0] == LowerChar('A') == 'a';
    assert up[2] == LowerChar('X') == 'x';
    forall k | 0 <= k < 7 && k != 0 && k != 2
      ensures up[k] == "a@x.com"[k]
    {
      assert !IsUpper("A@X.com"[k]);
    }
  }

  /** The sample address `a@x.com` is already normalised, and `A@X.com` normalises to it. */
  lemma SampleEmails()
    ensures NormalizeEmail("a@x.com") == "a@x.com"
    ensures NormalizeEmail("A@X.com") == "a@x.com"
  {
    TrimOfTrimmed("a@x.com");
    ToLowerOfLower("a@x.com");
    TrimOfTrimmed("A@X.com");
    SampleLowerCase();
  }

  /** Registering "Ann" as `a@x.com` on an empty store. */
  lemma RegisterAnn()
    ensures Register([], "Ann", "a@x.com", "pw", "pw")
            == Success(Registration([User("Ann", "a@x.com", "pw")], Session("Ann", "a@x.com")))
  {
    TrimOfTrimmed("Ann");
    SampleEmails();
  }

  /** After "Ann" registers as `a@x.com`, signing in as `A@X.com` finds that account. */
  lemma LoginIgnoresCaseScenario()
    ensures Login([User("Ann", "a@x.com", "pw")], "A@X.com", "pw") == Success(Session("Ann", "a@x.com"))
  {
    SampleEmails();
    assert FindAccount([User("Ann", "a@x.com", "pw")], "a@x.com", "pw") == Some(0);
  }

  /** After "Ann" registers as `a@x.com`, registering `a@x.com` a second time is refused. */
  lemma DuplicateEmailScenario()
    ensures Register([User("Ann", "a@x.com", "pw")], "Bob", "a@x.com", "pw2", "pw2") == Failure(EmailAlreadyExists)
  {
    SampleFieldsFilled();
    SampleEmailTaken();
  }

  /** Bob's registration passes the first check. */
  lemma SampleFieldsFilled()
    ensures FieldsFilled("Bob", "a@x.com", "pw2")
  {
    TrimOfTrimmed("Bob");
    SampleEmails();
  }

  /** Ann's account holds the normalised sample address. */
  lemma SampleEmailTaken()
    ensures EmailTaken([User("Ann", "a@x.com", "pw")], NormalizeEmail("a@x.com"))
  {
    var users := [User("Ann", "a@x.com", "pw")];
    SampleEmails();
    assert users[0] in users;
  }
}

=== FILE: bookings.dfy ===
/**
 The booking record and the two list operations the repository applies to the
 in-memory booking list: filtering (by owner on load, by id on cancel) and the
 newest-first ordering of the remote load path.
 */
module Bookings {
  import opened Results

  /** The two kinds of bookable item; a hall booking carries an event time. */
  datatype ItemKind = Room | Hall

  /**
   A booking as the submit handler builds it. Dates are day numbers (`None` when the
   date field was left empty), `guests` is the parsed guest count (`None` when it did not
   parse), `bookingDate` is the creation instant in milliseconds.
   */
  datatype Booking = Booking(
    id: string,
    kind: ItemKind,
    itemId: string,
    itemName: string,
    customerName: string,
    customerEmail: string,
    customerPhone: string,
    checkIn: Option<int>,
    checkOut: Option<int>,
    guests: Option<int>,
    eventTime: Option<string>,
    totalAmount: int,
    bookingDate: int)

  /** Which bookings a filter keeps: those owned by an e-mail, or those with any other id. */
  datatype Criterion = OwnedBy(email: string) | OtherThan(id: string)

  predicate Keeps(c: Criterion, b: Booking) {
    match c
    case OwnedBy(email) => b.customerEmail == email
    case OtherThan(id) => b.id != id
  }

  /** `s.filter(...)`: the bookings of `s` that `c` keeps, each as often as in `s`. */
  function Filter(s: seq<Booking>, c: Criterion): (r: seq<Booking>)
    ensures |r| <= |s|
    ensures forall b :: b in r ==> Keeps(c, b)
    ensures forall b :: multiset(r)[b] == if Keeps(c, b) then multiset(s)[b] else 0
  {
    if s == [] then []
    else
      assert s == [s[0]] + s[1..];
      if Keeps(c, s[0]) then [s[0]] + Filter(s[1..], c) else Filter(s[1..], c)
  }

  /** Filtering a concatenation filters each part: the kept bookings stay in their order. */
  lemma {:induction false} FilterAppend(a: seq<Booking>, b: seq<Booking>, c: Criterion)
    ensures Filter(a + b, c) == Filter(a, c) + Filter(b, c)
  {
    if a == [] {
      assert a + b == b;
    } else {
      assert (a + b)[1..] == a[1..] + b;
      FilterAppend(a[1..], b, c);
    }
  }

  /** A list whose every booking is kept comes back unchanged. */
  lemma {:induction false} FilterKeepsAll(s: seq<Booking>, c: Criterion)
    requires forall k :: 0 <= k < |s| ==> Keeps(c, s[k])
    ensures Filter(s, c) == s
  {
    if s != [] {
      FilterKeepsAll(s[1..], c);
    }
  }

  /** Filtering twice with the same criterion is filtering once. */
  lemma FilterIdempotent(s: seq<Booking>, c: Criterion)
    ensures Filter(Filter(s, c), c) == Filter(s, c)
  {
    var r := Filter(s, c);
    forall k | 0 <= k < |r|
      ensures Keeps(c, r[k])
    {
      assert r[k] in r;
    }
    FilterKeepsAll(r, c);
  }

  /** The bookings of `s` other than those with id `id`, in their order: the cancel filter. */
  function WithoutId(s: seq<Booking>, id: string): (r: seq<Booking>)
    ensures forall b :: multiset(r)[b] == if b.id != id then multiset(s)[b] else 0
    ensures forall b :: b in r <==> b in s && b.id != id
    ensures (forall k :: 0 <= k < |s| ==> s[k].id != id) ==> r == s
  {
    var r := Filter(s, OtherThan(id));
    assert forall b :: b in r <==> multiset(r)[b] > 0;
    assert forall b :: b in s <==> multiset(s)[b] > 0;
    if forall k :: 0 <= k < |s| ==> s[k].id != id then (FilterKeepsAll(s, OtherThan(id)); r) else r
  }

  /** Cancelling from a concatenation cancels from each part, so the remaining bookings keep
      their order. */
  lemma WithoutIdAppend(a: seq<Booking>, b: seq<Booking>, id: string)
    ensures WithoutId(a + b, id) == WithoutId(a, id) + WithoutId(b, id)
  {
    FilterAppend(a, b, OtherThan(id));
  }

  /** Cancelling the same id twice leaves the list cancelling it once leaves. */
  lemma CancelTwiceIsOnce(s: seq<Booking>, id: string)
    ensures WithoutId(WithoutId(s, id), id) == WithoutId(s, id)
  {
    FilterIdempotent(s, OtherThan(id));
  }

  /** Ordered by `bookingDate`, newest first: no booking is newer than the one before it. */
  predicate NewestFirst(s: seq<Booking>) {
    forall i :: 0 < i < |s| ==> s[i - 1].bookingDate >= s[i].bookingDate
  }

  /** In a newest-first list every booking is at least as new as every later one. */
  lemma {:induction false} NewestFirstPairwise(s: seq<Booking>, i: int, j: int)
    requires NewestFirst(s)
    requires 0 <= i <= j < |s|
    ensures s[i].bookingDate >= s[j].bookingDate
    decreases j - i
  {
    if i < j {
      NewestFirstPairwise(s, i + 1, j);
    }
  }

  /** Places `b` before the first booking of `s` that is not newer than it. */
  function InsertByDate(b: Booking, s: seq<Booking>): (r: seq<Booking>)
    ensures multiset(r) == multiset{b} + multiset(s)
    ensures |r| == |s| + 1
    ensures r[0] == b || (s != [] && r[0] == s[0])
    ensures s == [] || s[0].bookingDate <= b.bookingDate ==> r == [b] + s
  {
    if s == [] || s[0].bookingDate <= b.bookingDate then [b] + s
    else
      assert s == [s[0]] + s[1..];
      [s[0]] + InsertByDate(b, s[1..])
  }

  /** Inserting into a newest-first list keeps it newest-first. */
  lemma {:induction false} InsertKeepsOrder(b: Booking, s: seq<Booking>)
    requires NewestFirst(s)
    ensures NewestFirst(InsertByDate(b, s))
  {
    if s != [] && s[0].bookingDate > b.bookingDate {
      InsertKeepsOrder(b, s[1..]);
      var t := InsertByDate(b, s[1..]);
      assert t[0] == b || t[0] == s[1];
      assert InsertByDate(b, s) == [s[0]] + t;
    }
  }

  /** `s.sort((a, b) => b.bookingDate - a.bookingDate)`: a stable sort, newest first. */
  function SortNewestFirst(s: seq<Booking>): (r: seq<Booking>)
    ensures NewestFirst(r)
    ensures multiset(r) == multiset(s)
    ensures |r| == |s|
  {
    if s == [] then []
    else
      assert s == [s[0]] + s[1..];
      var t := SortNewestFirst(s[1..]);
      InsertKeepsOrder(s[0], t);
      InsertByDate(s[0], t)
  }

  /** A list already in newest-first order is left as it is by the sort. */
  lemma {:induction false} SortOfSorted(s: seq<Booking>)
    requires NewestFirst(s)
    ensures SortNewestFirst(s) == s
  {
    if s != [] {
      SortOfSorted(s[1..]);
    }
  }
}

=== FILE: catalog.dfy ===
/** The hotel's fixed list of rooms and halls and the lookup the booking form uses. */
module Catalog {
  import opened Results
  import opened Bookings

  /** A bookable item: its id, door number, display name, unit price and guest capacity. */
  datatype Item = Item(id: string, number: string, name: string, price: int, capacity: int)

  const Rooms: seq<Item> := [
    Item("r1", "101", "Deluxe Single Room", 2500, 2),
    Item("r2", "102", "Executive Double Room", 4000, 4),
    Item("r3", "201", "Presidential Suite", 8000, 6),
    Item("r4", "202", "Family Suite", 6000, 5)
  ]

  const Halls: seq<Item> := [
    Item("h1", "A1", "Conference Hall", 15000, 100),
    Item("h2", "B1", "Banquet Hall", 30000, 300),
    Item("h3", "C1", "Party Hall", 20000, 150)
  ]

  /** `items.find(i => i.id === id)`: the first item with that id, if any. */
  function FindItem(items: seq<Item>, id: string): (r: Option<Item>)
    ensures r.Some? ==> r.value.id == id && r.value in items
    ensures r.None? <==> forall k :: 0 <= k < |items| ==> items[k].id != id
  {
    if items == [] then None
    else if items[0].id == id then Some(items[0])
    else FindItem(items[1..], id)
  }

  /** What `find` returns is the first item with the id: no earlier item has it. */
  lemma {:induction false} FindItemIsFirst(items: seq<Item>, id: string)
    requires FindItem(items, id).Some?
    ensures exists k :: 0 <= k < |items| && items[k] == FindItem(items, id).value
                        && forall j :: 0 <= j < k ==> items[j].id != id
  {
    if items[0].id != id {
      var r := FindItem(items[1..], id);
      FindItemIsFirst(items[1..], id);
      var k :| 0 <= k < |items[1..]| && items[1..][k] == r.value
               && forall j :: 0 <= j < k ==> items[1..][j].id != id;
      assert items[k + 1] == r.value;
    } else {
      assert items[0] == FindItem(items, id).value;
    }
  }

  /** The item a booking form refers to: rooms are searched for `Room`, halls otherwise. */
  function LookupItem(kind: ItemKind, id: string): (r: Option<Item>)
    ensures r.Some? ==> r.value.id == id
  {
    FindItem(if kind == Room then Rooms else Halls, id)
  }

  /** The lookup searches the rooms for a room booking and the halls otherwise, and finds
      nothing exactly when no item of that list has the id. */
  lemma LookupItemSearchesKind(kind: ItemKind, id: string)
    ensures LookupItem(kind, id).Some? ==>
              (if kind == Room then LookupItem(kind, id).value in Rooms else LookupItem(kind, id).value in Halls)
    ensures LookupItem(kind, id).None? <==>
              (forall it :: it in (if kind == Room then Rooms else Halls) ==> it.id != id)
  {
    var items := if kind == Room then Rooms else Halls;
    assert forall it :: it in items <==> exists k :: 0 <= k < |items| && items[k] == it;
  }

  /** No two items of `items` share an id. */
  predicate UniqueIds(items: seq<Item>) {
    forall i, j :: 0 <= i < j < |items| ==> items[i].id != items[j].id
  }

  /** With unique ids, `find` by an item's own id gives back that item. */
  lemma {:induction false} FindListed(items: seq<Item>, k: int)
    requires UniqueIds(items) && 0 <= k < |items|
    ensures FindItem(items, items[k].id) == Some(items[k])
  {
    var r := FindItem(items, items[k].id);
    assert r.Some?;
    FindItemIsFirst(items, items[k].id);
    var j :| 0 <= j < |items| && items[j] == r.value
             && forall i :: 0 <= i < j ==> items[i].id != items[k].id;
    assert j == k;
  }

  /** The catalog's ids are unique in each list, and every item has a positive price and
      capacity. */
  lemma CatalogWellFormed()
    ensures UniqueIds(Rooms) && UniqueIds(Halls)
    ensures forall it :: it in Rooms ==> it.price > 0 && it.capacity > 0
    ensures forall it :: it in Halls ==> it.price > 0 && it.capacity > 0
  {
  }

  /** Looking a listed item up by its id finds that item. */
  lemma CatalogLookups()
    ensures forall k :: 0 <= k < |Rooms| ==> LookupItem(Room, Rooms[k].id) == Some(Rooms[k])
    ensures forall k :: 0 <= k < |Halls| ==> LookupItem(Hall, Halls[k].id) == Some(Halls[k])
  {
    CatalogWellFormed();
    forall k | 0 <= k < |Rooms|
      ensures LookupItem(Room, Rooms[k].id) == Some(Rooms[k])
    {
      FindListed(Rooms, k);
    }
    forall k | 0 <= k < |Halls|
      ensures LookupItem(Hall, Halls[k].id) == Some(Halls[k])
    {
      FindListed(Halls, k);
    }
  }
}

=== FILE: flows.dfy ===
/**
 What a customer sees across handlers: a booking submitted and saved shows up in the
 next load, a cancelled booking does not, and nothing shows after logging out.
 */
module Flows {
  import opened Results
  import opened Accounts
  import opened Bookings
  import opened Lifecycle
  import opened Repository

  /** In a list whose ids are pairwise different, a listed booking occurs exactly once. */
  lemma {:induction false} OnceIfIdsDistinct(s: seq<Booking>, b: Booking)
    requires forall i, j :: 0 <= i < j < |s| ==> s[i].id != s[j].id
    requires b in s
    ensures multiset(s)[b] == 1
  {
    assert s == [s[0]] + s[1..];
    if s[0] == b {
      forall k | 0 <= k < |s[1..]|
        ensures s[1..][k] != b
      {
        assert s[1..][k].id == s[k + 1].id != s[0].id;
      }
      assert b !in s[1..];
    } else {
      OnceIfIdsDistinct(s[1..], b);
    }
  }

  /** Submitting a booking and saving it without the database, or after a failed database
      write, puts it in local storage; the customer's next local load shows it once more
      than the list held it before, which is exactly once when its id was new. */
  lemma SubmitThenLoadLocal(bookings: seq<Booking>, form: BookingForm, clock: nat, now: int,
                            backend: Backend, stores: Stores, session: Option<Session>, current: seq<Booking>)
    requires backend == LocalOnly || backend == Remote(false)
    requires !DatesOutOfOrder(form) && !OverCapacity(form)
    requires SignedIn(session) && session.value.email == form.customerEmail
    ensures
      var list := SubmitBooking(bookings, form, clock, now).value;
      var loaded := LoadLocal(current, SaveBookings(list, backend, stores).value.local, session);
      && list[0] in loaded
      && multiset(loaded)[list[0]] == 1 + multiset(Filter(bookings, OwnedBy(form.customerEmail)))[list[0]]
      && ((forall x :: x in bookings ==> x.id != BookingId(clock)) ==> multiset(loaded)[list[0]] == 1)
  {
    var list := SubmitBooking(bookings, form, clock, now).value;
    assert list == [list[0]] + bookings;
    var b := list[0];
    if forall x :: x in bookings ==> x.id != BookingId(clock) {
      assert b !in bookings;
    }
  }

  /** Submitting a booking and writing it to the database puts it under its id; the
      customer's next database load shows it exactly once. */
  lemma SubmitThenLoadRemote(bookings: seq<Booking>, form: BookingForm, clock: nat, now: int,
                             stores: Stores, keys: seq<string>, session: Option<Session>, current: seq<Booking>)
    requires !DatesOutOfOrder(form) && !OverCapacity(form)
    requires StoredUnderOwnId(stores.remote)
    requires SignedIn(session) && session.value.email == form.customerEmail
    requires KeyListing(stores.remote[BookingId(clock) := NewBooking(form, clock, now)], keys)
    ensures
      var list := SubmitBooking(bookings, form, clock, now).value;
      var saved := SaveBookings(list, Remote(true), stores).value;
      multiset(LoadBookings(Remote(true), current, saved, keys, session))[list[0]] == 1
  {
    var list := SubmitBooking(bookings, form, clock, now).value;
    var b := list[0];
    var saved := SaveBookings(list, Remote(true), stores).value;
    var d := saved.remote;
    assert b.id in d && d[b.id] == b;
    var snap := SnapshotList(d, keys);
    var k :| 0 <= k < |keys| && keys[k] == b.id;
    assert snap[k] == b;
    forall i, j | 0 <= i < j < |snap|
      ensures snap[i].id != snap[j].id
    {
      assert snap[i].id == keys[i] && snap[j].id == keys[j];
    }
    OnceIfIdsDistinct(snap, b);
  }

  /** A confirmed cancellation without the database, or after a failed removal, leaves
      no booking with that id in the customer's next local load. */
  lemma CancelThenLoadLocal(bookings: seq<Booking>, id: string, backend: Backend, stores: Stores,
                            session: Option<Session>, current: seq<Booking>)
    requires backend != Remote(true)
    ensures
      var repo := CancelBooking(bookings, id, true, backend, stores);
      forall b :: b in LoadLocal(current, repo.stores.local, session) ==> b.id != id
  {
    var repo := CancelBooking(bookings, id, true, backend, stores);
    var loaded := LoadLocal(current, repo.stores.local, session);
    forall b | b in loaded
      ensures b.id != id
    {
      assert multiset(loaded)[b] > 0;
      assert b in repo.bookings;
    }
  }

  /** After logging out, a reload from either store shows nothing. */
  lemma LogoutThenLoad(app: App, backend: Backend, keys: seq<string>)
    requires backend.Remote? ==> KeyListing(app.stores.remote, keys)
    ensures var out := Logout(app);
            LoadBookings(backend, out.bookings, out.stores, keys, out.session) == []
  {
  }

  /** A customer's local load followed by a new booking saved to local storage overwrites
      `hotelBookings` with that customer's bookings alone: every booking of another customer
      that was saved there is gone from the store. */
  lemma LocalSaveKeepsOnlyOwnBookings(saved: seq<Booking>, form: BookingForm, clock: nat, now: int,
                                      stores: Stores, session: Option<Session>, current: seq<Booking>)
    requires SignedIn(session) && session.value.email == form.customerEmail
    requires !DatesOutOfOrder(form) && !OverCapacity(form)
    ensures
      var list := SubmitBooking(LoadLocal(current, Some(saved), session), form, clock, now).value;
      var written := SaveBookings(list, LocalOnly, stores).value.local.value;
      (forall x :: x in written ==> x.customerEmail == form.customerEmail)
      && (forall x :: x in saved && x.customerEmail != form.customerEmail ==> x !in written)
  {
    var owned := LoadLocal(current, Some(saved), session);
    var list := SubmitBooking(owned, form, clock, now).value;
    assert list == [list[0]] + owned;
    forall x | x in owned
      ensures x.customerEmail == form.customerEmail
    {
      assert multiset(owned)[x] > 0;
    }
  }

  /** With the database present, a failed write puts the new list in local storage only, but
      the next load reads the database alone: a booking whose id was not stored there before
      is missing from the customer's next load. */
  lemma FailedWriteThenLoadRemote(bookings: seq<Booking>, form: BookingForm, clock: nat, now: int,
                                  stores: Stores, keys: seq<string>, session: Option<Session>, current: seq<Booking>)
    requires !DatesOutOfOrder(form) && !OverCapacity(form)
    requires StoredUnderOwnId(stores.remote) && BookingId(clock) !in stores.remote
    requires KeyListing(stores.remote, keys)
    ensures
      var list := SubmitBooking(bookings, form, clock, now).value;
      var saved := SaveBookings(list, Remote(false), stores).value;
      list[0] !in LoadBookings(Remote(false), current, saved, keys, session)
  {
    var list := SubmitBooking(bookings, form, clock, now).value;
    var b := list[0];
    assert b.id == BookingId(clock);
    assert forall key :: key in stores.remote ==> stores.remote[key] != b;
  }

  /** With the database present, a failed removal filters the booking out of local storage
      only; the database still holds it, so the customer's next load brings it back. */
  lemma FailedRemoveThenLoadRemote(bookings: seq<Booking>, b: Booking, stores: Stores, keys: seq<string>,
                                   session: Option<Session>)
    requires KeyListing(stores.remote, keys)
    requires b in stores.remote.Values
    requires SignedIn(session) && session.value.email == b.customerEmail
    ensures
      var repo := CancelBooking(bookings, b.id, true, Remote(false), stores);
      b in LoadBookings(Remote(false), repo.bookings, repo.stores, keys, session)
  {
  }
}

=== FILE: lifecycle.dfy ===
/**
 The booking form's submit handler: it checks the dates, then the guest count against
 the item's capacity, builds the booking record and puts it at the front of the
 in-memory list. The clock readings it uses are parameters.
 */
module Lifecycle {
  import opened Results
  import opened Bookings
  import opened Catalog
  import opened Pricing

  /**
   The fields the booking form submits. `price` is the unit price the form was opened
   with; `checkIn`/`checkOut` are day numbers, `None` for an empty date field; `guests`
   is the guest count after `parseInt`, `None` when it is not a number.
   */
  datatype BookingForm = BookingForm(
    kind: ItemKind,
    itemId: string,
    itemName: string,
    price: int,
    customerName: string,
    customerEmail: string,
    customerPhone: string,
    checkIn: Option<int>,
    checkOut: Option<int>,
    guests: Option<int>,
    eventTime: string)

  /** Why a submission is refused; the capacity is the one quoted in the message. */
  datatype SubmitError = InvalidDateRange | CapacityExceeded(capacity: int)

  function DigitChar(d: nat): (c: char)
    requires d < 10
  {
    ('0' as int + d) as char
  }

  /** The decimal notation of `n`, as `String(n)` writes it. */
  function Digits(n: nat): (s: string)
    ensures |s| >= 1
    ensures forall k :: 0 <= k < |s| ==> '0' <= s[k] <= '9'
    ensures n >= 10 <==> |s| >= 2
    ensures s[0] == '0' ==> n == 0
  {
    if n < 10 then [DigitChar(n)] else Digits(n / 10) + [DigitChar(n % 10)]
  }

  /** Different numbers are written differently. */
  lemma {:induction false} DigitsInjective(a: nat, b: nat)
    requires Digits(a) == Digits(b)
    ensures a == b
  {
    if a >= 10 && b >= 10 {
      var da, db := Digits(a), Digits(b);
      assert da[..|da| - 1] == Digits(a / 10);
      assert db[..|db| - 1] == Digits(b / 10);
      DigitsInjective(a / 10, b / 10);
      assert DigitChar(a % 10) == da[|da| - 1] == DigitChar(b % 10);
    }
  }

  /** `'BK' + Date.now()`: the id a booking gets from the clock reading at submission. */
  function BookingId(clock: nat): (id: string)
    ensures |id| >= 3 && id[..2] == "BK"
  {
    "BK" + Digits(clock)
  }

  /** Submissions at different milliseconds get different booking ids. */
  lemma BookingIdsDistinct(a: nat, b: nat)
    requires a != b
    ensures BookingId(a) != BookingId(b)
  {
    if BookingId(a) == BookingId(b) {
      assert Digits(a) == BookingId(a)[2..];
      DigitsInjective(a, b);
    }
  }

  /** `new Date(checkOut) <= new Date(checkIn)`. An empty date field is an invalid date, and
      comparisons with an invalid date are false, so only two filled dates can be out of order. */
  predicate DatesOutOfOrder(form: BookingForm) {
    form.checkIn.Some? && form.checkOut.Some? && form.checkOut.value <= form.checkIn.value
  }

  /** `item && guests > item.capacity`: only a known item and a guest count that is a
      number can exceed the capacity. */
  predicate OverCapacity(form: BookingForm) {
    var item := LookupItem(form.kind, form.itemId);
    item.Some? && form.guests.Some? && form.guests.value > item.value.capacity
  }

  /** The booking record the handler builds from the form: every form field is copied,
      `eventTime || null` turns an empty event time into `None`, and the total is the one
      `calculateTotalPrice` shows for the form's dates. */
  function NewBooking(form: BookingForm, clock: nat, now: int): (b: Booking)
    ensures b.id == BookingId(clock) && b.bookingDate == now
    ensures b.kind == form.kind && b.itemId == form.itemId && b.itemName == form.itemName
    ensures b.customerName == form.customerName && b.customerEmail == form.customerEmail
    ensures b.customerPhone == form.customerPhone
    ensures b.checkIn == form.checkIn && b.checkOut == form.checkOut && b.guests == form.guests
    ensures b.eventTime.None? <==> form.eventTime == ""
    ensures b.eventTime.Some? ==> b.eventTime.value == form.eventTime
    ensures form.checkIn.Some? && form.checkOut.Some? && form.checkIn.value < form.checkOut.value ==>
              b.totalAmount == form.price * (form.checkOut.value - form.checkIn.value)
    ensures form.checkIn.None? || form.checkOut.None? ==> b.totalAmount == 0
  {
    Booking(
      BookingId(clock), form.kind, form.itemId, form.itemName,
      form.customerName, form.customerEmail, form.customerPhone,
      form.checkIn, form.checkOut, form.guests,
      if form.eventTime == "" then None else Some(form.eventTime),
      TotalPrice(form.price, form.checkIn, form.checkOut),
      now)
  }

  /** `b` carries the form's fields, the id from `clock` and the creation instant `now`;
      an empty event time is stored as `None`. */
  predicate CopiesForm(b: Booking, form: BookingForm, clock: nat, now: int) {
    && b.id == BookingId(clock) && b.bookingDate == now
    && b.kind == form.kind && b.itemId == form.itemId && b.itemName == form.itemName
    && b.customerName == form.customerName && b.customerEmail == form.customerEmail
    && b.customerPhone == form.customerPhone
    && b.checkIn == form.checkIn && b.checkOut == form.checkOut && b.guests == form.guests
    && (b.eventTime.None? <==> form.eventTime == "")
    && (form.eventTime != "" ==> b.eventTime == Some(form.eventTime))
  }

  /** `b`'s dates are in order and its guest count fits the item, when the item is known. */
  predicate PassesChecks(b: Booking, form: BookingForm) {
    && (b.checkIn.Some? && b.checkOut.Some? ==> b.checkIn.value < b.checkOut.value)
    && (LookupItem(form.kind, form.itemId).Some? && b.guests.Some? ==>
          b.guests.value <= LookupItem(form.kind, form.itemId).value.capacity)
  }

  /** `b`'s total is the unit price times the nights, and 0 while a date is missing. */
  predicate PricedByForm(b: Booking, form: BookingForm) {
    && (b.checkIn.Some? && b.checkOut.Some? ==>
          b.totalAmount == form.price * (b.checkOut.value - b.checkIn.value))
    && (b.checkIn.None? || b.checkOut.None? ==> b.totalAmount == 0)
  }

  /** `b` is a booking the submit handler may store for `form`. */
  predicate Accepted(b: Booking, form: BookingForm, clock: nat, now: int) {
    CopiesForm(b, form, clock, now) && PassesChecks(b, form) && PricedByForm(b, form)
  }

  /** A form that passes both checks yields an accepted booking. */
  lemma NewBookingAccepted(form: BookingForm, clock: nat, now: int)
    requires !DatesOutOfOrder(form) && !OverCapacity(form)
    ensures Accepted(NewBooking(form, clock, now), form, clock, now)
  {
    var b := NewBooking(form, clock, now);
    NewBookingPassesChecks(form, clock, now);
    NewBookingPriced(form, clock, now);
    assert CopiesForm(b, form, clock, now);
  }

  /** The record of a form that passed both checks has ordered dates and fits its item. */
  lemma NewBookingPassesChecks(form: BookingForm, clock: nat, now: int)
    requires !DatesOutOfOrder(form) && !OverCapacity(form)
    ensures PassesChecks(NewBooking(form, clock, now), form)
  {
  }

  /** The record's total agrees with the form's price and dates once the date check passed. */
  lemma NewBookingPriced(form: BookingForm, clock: nat, now: int)
    requires !DatesOutOfOrder(form)
    ensures PricedByForm(NewBooking(form, clock, now), form)
  {
  }

  /** Two filled dates that pass the date check are charged for exactly their day
      difference: the `|| 1` of the night count never applies to an accepted stay. */
  lemma DateCheckFixesNights(form: BookingForm)
    requires form.checkIn.Some? && form.checkOut.Some? && !DatesOutOfOrder(form)
    ensures CalculateNights(form.checkIn.value, form.checkOut.value) == form.checkOut.value - form.checkIn.value
  {
  }

  /** The submit handler. The date order is checked first, then the capacity; an accepted
      booking is put at the front of the list and nothing else in the list changes.
      `clock` is `Date.now()` for the id and `now` the creation instant in milliseconds. */
  function SubmitBooking(bookings: seq<Booking>, form: BookingForm, clock: nat, now: int)
    : (r: Result<seq<Booking>, SubmitError>)
    ensures r == Failure(InvalidDateRange) <==> DatesOutOfOrder(form)
    ensures (r.Failure? && r.error.CapacityExceeded?) <==> !DatesOutOfOrder(form) && OverCapacity(form)
    ensures r.Failure? && r.error.CapacityExceeded? ==>
              r.error.capacity == LookupItem(form.kind, form.itemId).value.capacity
    ensures r.Success? ==> |r.value| == |bookings| + 1 && r.value[1..] == bookings
    ensures r.Success? ==> Accepted(r.value[0], form, clock, now)
  {
    if DatesOutOfOrder(form) then Failure(InvalidDateRange)
    else if OverCapacity(form) then Failure(CapacityExceeded(LookupItem(form.kind, form.itemId).value.capacity))
    else
      var b := NewBooking(form, clock, now);
      NewBookingAccepted(form, clock, now);
      assert ([b] + bookings)[0] == b && ([b] + bookings)[1..] == bookings;
      Success([b] + bookings)
  }

  /** A form for `item` with the given dates and guest count, every other field fixed. */
  function SampleForm(kind: ItemKind, item: string, checkIn: int, checkOut: int, guests: int): BookingForm {
    BookingForm(kind, item, "", 4000, "Ann", "a@x.com", "", Some(checkIn), Some(checkOut), Some(guests), "")
  }

  /** Five guests in the four-guest Executive Double Room are refused with the capacity 4. */
  lemma CapacityScenario(bookings: seq<Booking>, clock: nat, now: int)
    ensures SubmitBooking(bookings, SampleForm(Room, "r2", 10, 12, 5), clock, now) == Failure(CapacityExceeded(4))
  {
    assert LookupItem(Room, "r2") == Some(Rooms[1]);
  }

  /** Checking out on the check-in day is refused as a bad date range, even with too many guests. */
  lemma SameDayScenario(bookings: seq<Booking>, clock: nat, now: int)
    ensures SubmitBooking(bookings, SampleForm(Room, "r2", 10, 10, 5), clock, now) == Failure(InvalidDateRange)
  {
  }
}

=== FILE: pricing.dfy ===
/**
 Stay length and price. The browser measures the gap between the two date inputs in
 milliseconds and rounds it up to whole days; a zero-day stay is charged as one.
 */
module Pricing {
  import opened Results

  /** Milliseconds in a day, `1000 * 60 * 60 * 24`. */
  const MsPerDay: nat := 1000 * 60 * 60 * 24

  function Abs(x: int): nat {
    if x < 0 then -x else x
  }

  /** `Math.ceil(a / d)` for a non-negative `a`: the least whole number of `d`-sized steps covering `a`. */
  function CeilDiv(a: nat, d: nat): (q: nat)
    requires d > 0
    ensures q * d >= a
    ensures a > 0 ==> (q - 1) * d < a
    ensures a == 0 ==> q == 0
  {
    var q := (a + d - 1) / d;
    assert q * d + (a + d - 1) % d == a + d - 1;
    q
  }

  /** For a positive factor, a smaller product means a smaller multiplicand. */
  lemma MulStrictlyIncreasing(a: int, b: int, d: nat)
    requires d > 0 && a * d < b * d
    ensures a < b
  {
    assert (b - a) * d == b * d - a * d;
  }

  /** Whole multiples of `d` divide exactly. */
  lemma CeilDivExact(k: nat, d: nat)
    requires d > 0
    ensures CeilDiv(k * d, d) == k
  {
    var q := CeilDiv(k * d, d);
    if k > 0 {
      assert (q - 1) * d < k * d <= q * d;
      MulStrictlyIncreasing(q - 1, k, d);
      MulStrictlyIncreasing(k - 1, q, d);
    }
  }

  /** `calculateNights`: check-in and check-out are day numbers, read as midnight (UTC) of
      that day. The stay is the absolute number of days between them, and a zero-day
      stay counts as one. */
  function CalculateNights(checkIn: int, checkOut: int): (n: nat)
    ensures n >= 1
    ensures checkIn != checkOut ==> n == Abs(checkOut - checkIn)
    ensures checkIn == checkOut ==> n == 1
  {
    var diffTime := Abs(checkOut * MsPerDay - checkIn * MsPerDay);
    assert diffTime == Abs(checkOut - checkIn) * MsPerDay by {
      assert checkOut * MsPerDay - checkIn * MsPerDay == (checkOut - checkIn) * MsPerDay;
    }
    var diffDays := CeilDiv(diffTime, MsPerDay);
    CeilDivExact(Abs(checkOut - checkIn), MsPerDay);
    if diffDays == 0 then 1 else diffDays
  }

  /** The order of the two dates does not matter to the stay length. */
  lemma NightsSymmetric(a: int, b: int)
    ensures CalculateNights(a, b) == CalculateNights(b, a)
  {
  }

  /** `calculateTotalPrice`: the unit price times the stay length, or 0 while either date
      field is still empty. */
  function TotalPrice(price: int, checkIn: Option<int>, checkOut: Option<int>): (t: int)
    ensures checkIn.None? || checkOut.None? ==> t == 0
    ensures checkIn.Some? && checkOut.Some? && checkIn.value < checkOut.value
            ==> t == price * (checkOut.value - checkIn.value)
    ensures checkIn.Some? && checkOut.Some? && checkIn.value == checkOut.value ==> t == price
    ensures checkIn.Some? && checkOut.Some? && checkIn.value > checkOut.value
            ==> t == price * (checkIn.value - checkOut.value)
  {
    if checkIn.Some? && checkOut.Some? then price * CalculateNights(checkIn.value, checkOut.value) else 0
  }
}

=== FILE: repository.dfy ===
/**
 The booking repository: the in-memory booking list of the signed-in customer and the
 two stores behind it, the browser's local storage (`hotelBookings`) and the realtime
 database's `bookings` node keyed by booking id. Which store is used depends on
 whether the database service is present; the database's own success or failure is a
 parameter.
 */
module Repository {
  import opened Results
  import opened Accounts
  import opened Bookings

  /** No database service (local storage only), or a database service whose writes and
      removals either go through or fail. */
  datatype Backend = LocalOnly | Remote(writesSucceed: bool)

  /** The persistent state: the local-storage list (`None` while the key is absent) and the
      database's `bookings` node. */
  datatype Stores = Stores(local: Option<seq<Booking>>, remote: map<string, Booking>)

  /** The in-memory booking list together with the stores. */
  datatype Repo = Repo(bookings: seq<Booking>, stores: Stores)

  /** `getCurrentUserEmail`: the session's e-mail, or `None` when nobody is signed in. */
  function SessionEmail(session: Option<Session>): Option<string> {
    match session
    case None => None
    case Some(s) => Some(s.email)
  }

  /** `if (userEmail)` on `getCurrentUserEmail()`: a session whose e-mail is the empty
      string counts as signed out. */
  predicate SignedIn(session: Option<Session>) {
    var email := SessionEmail(session);
    email.Some? && email.value != ""
  }

  /** The local-storage branch of `loadBookings`. With no saved list the in-memory list is
      left as it was; otherwise it becomes the saved bookings owned by the signed-in
      customer, in their saved order, or the empty list when nobody is signed in. */
  function LoadLocal(current: seq<Booking>, saved: Option<seq<Booking>>, session: Option<Session>)
    : (r: seq<Booking>)
    ensures saved.None? ==> r == current
    ensures saved.Some? && !SignedIn(session) ==> r == []
    ensures saved.Some? && SignedIn(session) ==>
              forall b :: multiset(r)[b] ==
                if b.customerEmail == session.value.email then multiset(saved.value)[b] else 0
  {
    match saved
    case None => current
    case Some(all) => if SignedIn(session) then Filter(all, OwnedBy(SessionEmail(session).value)) else []
  }

  /** Loading a saved concatenation loads each part in turn, so the customer's bookings keep
      their saved order. */
  lemma LoadLocalAppend(current: seq<Booking>, a: seq<Booking>, b: seq<Booking>, session: Option<Session>)
    ensures LoadLocal(current, Some(a + b), session)
            == LoadLocal(current, Some(a), session) + LoadLocal(current, Some(b), session)
  {
    if SignedIn(session) {
      FilterAppend(a, b, OwnedBy(SessionEmail(session).value));
    }
  }

  /** `keys` is `Object.keys(data)`: every key of the node exactly once. */
  predicate KeyListing(data: map<string, Booking>, keys: seq<string>) {
    && (forall k :: 0 <= k < |keys| ==> keys[k] in data)
    && (forall key :: key in data ==> key in keys)
    && (forall i, j :: 0 <= i < j < |keys| ==> keys[i] != keys[j])
  }

  /** Every booking in the database sits under its own id, as `set(ref('bookings/' + id), ...)` puts it. */
  predicate StoredUnderOwnId(data: map<string, Booking>) {
    forall key :: key in data ==> data[key].id == key
  }

  /** The snapshot as a list, one booking per key in `keys` order. A stored booking's own
      `id` field wins over the key in `{ id: key, ...data[key] }`, and every stored booking has one. */
  function SnapshotList(data: map<string, Booking>, keys: seq<string>): (r: seq<Booking>)
    requires forall k :: 0 <= k < |keys| ==> keys[k] in data
    ensures |r| == |keys|
    ensures forall k :: 0 <= k < |keys| ==> r[k] == data[keys[k]]
  {
    seq(|keys|, k requires 0 <= k < |keys| => data[keys[k]])
  }

  /** The database branch of `loadBookings`: the snapshot's bookings owned by the signed-in
      customer, newest first. An empty snapshot or a signed-out session gives the empty list. */
  function LoadRemote(data: Option<map<string, Booking>>, keys: seq<string>, session: Option<Session>)
    : (r: seq<Booking>)
    requires data.Some? ==> KeyListing(data.value, keys)
    ensures NewestFirst(r)
    ensures data.None? || !SignedIn(session) ==> r == []
    ensures data.Some? && SignedIn(session) ==>
              forall b :: multiset(r)[b] ==
                if b.customerEmail == session.value.email then multiset(SnapshotList(data.value, keys))[b] else 0
  {
    match data
    case None => []
    case Some(d) =>
      var owned := if SignedIn(session) then Filter(SnapshotList(d, keys), OwnedBy(SessionEmail(session).value)) else [];
      SortNewestFirst(owned)
  }

  /** `loadBookings`: the local branch without a database service, the database branch with
      one. The database reports an empty node as a null snapshot. */
  function LoadBookings(backend: Backend, current: seq<Booking>, stores: Stores, keys: seq<string>,
                        session: Option<Session>): (r: seq<Booking>)
    requires backend.Remote? ==> KeyListing(stores.remote, keys)
    ensures backend.LocalOnly? ==> r == LoadLocal(current, stores.local, session)
    ensures backend.Remote? ==> NewestFirst(r)
    ensures backend.Remote? && !SignedIn(session) ==> r == []
    ensures backend.Remote? && SignedIn(session) ==>
              forall b :: multiset(r)[b] ==
                if b.customerEmail == session.value.email then multiset(SnapshotList(stores.remote, keys))[b] else 0
    ensures backend.Remote? && SignedIn(session) ==>
              forall b :: b in r <==> b.customerEmail == session.value.email && b in stores.remote.Values
  {
    if backend.LocalOnly? then LoadLocal(current, stores.local, session)
    else
      var data := if stores.remote == map[] then None else Some(stores.remote);
      var r := LoadRemote(data, keys, session);
      SnapshotHoldsNode(stores.remote, keys);
      assert forall b :: b in r <==> multiset(r)[b] > 0;
      r
  }

  /** The snapshot list holds exactly the bookings stored in the node. */
  lemma SnapshotHoldsNode(data: map<string, Booking>, keys: seq<string>)
    requires KeyListing(data, keys)
    ensures forall b :: multiset(SnapshotList(data, keys))[b] > 0 <==> b in data.Values
  {
    var snap := SnapshotList(data, keys);
    forall b
      ensures multiset(snap)[b] > 0 <==> b in data.Values
    {
      assert b in snap <==> multiset(snap)[b] > 0;
      if b in data.Values {
        var key :| key in data && data[key] == b;
        var k :| 0 <= k < |keys| && keys[k] == key;
        assert snap[k] == b;
      }
    }
  }

  /** `saveBookings`: without a database service the whole list goes to local storage. With
      one, only the first booking of the list is written, under its id; if that write fails
      the whole list goes to local storage instead. An empty list cannot be written to the
      database (`bookings[0]` is undefined), which is `None`. */
  function SaveBookings(bookings: seq<Booking>, backend: Backend, stores: Stores): (r: Option<Stores>)
    ensures backend.LocalOnly? ==> r == Some(Stores(Some(bookings), stores.remote))
    ensures backend.Remote? && bookings == [] ==> r.None?
    ensures backend == Remote(true) && bookings != [] ==>
              r == Some(Stores(stores.local, stores.remote[bookings[0].id := bookings[0]]))
    ensures backend == Remote(false) && bookings != [] ==> r == Some(Stores(Some(bookings), stores.remote))
    ensures r.Some? && StoredUnderOwnId(stores.remote) ==> StoredUnderOwnId(r.value.remote)
  {
    match backend
    case LocalOnly => Some(Stores(Some(bookings), stores.remote))
    case Remote(ok) =>
      if bookings == [] then None
      else if ok then Some(Stores(stores.local, stores.remote[bookings[0].id := bookings[0]]))
      else Some(Stores(Some(bookings), stores.remote))
  }

  /** `deleteBookingFromFirebase`: without a database service the booking is filtered out of
      the list and the rest is written to local storage. With one, the database entry is
      removed and the list is left alone; if the removal fails, the local-storage path is
      taken instead. */
  function DeleteBooking(bookings: seq<Booking>, id: string, backend: Backend, stores: Stores): (r: Repo)
    ensures backend == Remote(true) ==>
              r.bookings == bookings && r.stores == Stores(stores.local, stores.remote - {id})
    ensures backend != Remote(true) ==>
              r.bookings == WithoutId(bookings, id) && r.stores == Stores(Some(r.bookings), stores.remote)
  {
    if backend == Remote(true) then Repo(bookings, Stores(stores.local, stores.remote - {id}))
    else
      var rest := WithoutId(bookings, id);
      Repo(rest, Stores(Some(rest), stores.remote))
  }

  /** `cancelBooking`: when the customer confirms, the booking is deleted and then filtered out
      of the in-memory list again. Whichever store was used, the list ends up without any
      booking with that id and with every other booking in its order. */
  function CancelBooking(bookings: seq<Booking>, id: string, confirmed: bool, backend: Backend, stores: Stores)
    : (r: Repo)
    ensures !confirmed ==> r == Repo(bookings, stores)
    ensures confirmed ==> r.bookings == WithoutId(bookings, id)
    ensures confirmed ==> forall b :: b in r.bookings <==> b in bookings && b.id != id
    ensures r.stores.remote == if confirmed && backend == Remote(true) then stores.remote - {id} else stores.remote
    ensures confirmed && backend == Remote(true) ==> id !in r.stores.remote && r.stores.local == stores.local
    ensures confirmed && backend != Remote(true) ==> r.stores.local == Some(r.bookings)
  {
    if !confirmed then Repo(bookings, stores)
    else
      var deleted := DeleteBooking(bookings, id, backend, stores);
      CancelTwiceIsOnce(bookings, id);
      Repo(WithoutId(deleted.bookings, id), deleted.stores)
  }

  /** The whole client state: the credential store, the session, and the repository. */
  datatype App = App(users: seq<User>, session: Option<Session>, bookings: seq<Booking>, stores: Stores)

  /** `handleLogout`: the session is dropped and the in-memory list emptied; the stores and
      the credential store are untouched. */
  function Logout(app: App): (r: App)
    ensures r.session.None? && r.bookings == []
    ensures r.users == app.users && r.stores == app.stores
  {
    App(app.users, None, [], app.stores)
  }
}

=== FILE: results.dfy ===
/** Optional values and success-or-error results shared by every module. */
module Results {

  /** A value that may be absent: a JavaScript `null`, an empty form field, a missing storage key. */
  datatype Option<+T> = None | Some(value: T)

  /** The outcome of a handler that either produces a value or stops with a user-facing error. */
  datatype Result<+T, +E> = Success(value: T) | Failure(error: E)
}

=== FILE: text.dfy ===
/**
 The two string operations the account forms apply to their input: JavaScript's
 `String.prototype.trim` and `String.prototype.toLowerCase`, and their composition,
 the e-mail normalisation used by registration and login.
 */
module Text {

  /** The characters `trim` removes: JavaScript's WhiteSpace and LineTerminator sets. */
  predicate IsSpace(c: char) {
    || c == '\t' || c == '\n' || c == '\U{B}' || c == '\U{C}' || c == '\r' || c == ' '
    || c == '\U{A0}' || c == '\U{1680}' || ('\U{2000}' <= c <= '\U{200A}')
    || c == '\U{2028}' || c == '\U{2029}' || c == '\U{202F}' || c == '\U{205F}'
    || c == '\U{3000}' || c == '\U{FEFF}'
  }

  /** Neither end of `s` is a space: `trim` has nothing left to remove. */
  predicate Trimmed(s: string) {
    s == [] || (!IsSpace(s[0]) && !IsSpace(s[|s| - 1]))
  }

  /** Every character of `s` is a space. */
  predicate AllSpaces(s: string) {
    forall k :: 0 <= k < |s| ==> IsSpace(s[k])
  }

  /** `s` is `r` with only spaces before it (the first `i` characters) and after it. */
  predicate SpacesAround(s: string, i: int, r: string) {
    && 0 <= i <= |s| - |r|
    && r == s[i..i + |r|]
    && AllSpaces(s[..i])
    && AllSpaces(s[i + |r|..])
  }

  /** Drops the leading spaces of `s`. */
  function TrimStart(s: string): (r: string)
    ensures |r| <= |s|
    ensures r == [] || !IsSpace(r[0])
  {
    if s == [] || !IsSpace(s[0]) then s else TrimStart(s[1..])
  }

  /** What `TrimStart` drops is a prefix of spaces: the result is a suffix of the input. */
  lemma {:induction false} TrimStartDropsSpaces(s: string)
    ensures TrimStart(s) == s[|s| - |TrimStart(s)|..]
    ensures AllSpaces(s[..|s| - |TrimStart(s)|])
    decreases |s|
  {
    if s != [] && IsSpace(s[0]) {
      var r := TrimStart(s[1..]);
      assert TrimStart(s) == r;
      TrimStartDropsSpaces(s[1..]);
      var n := |s| - |r|;
      assert s[1..][n - 1..] == s[n..];
      forall k | 0 <= k < n
        ensures IsSpace(s[..n][k])
      {
        if k > 0 {
          assert s[..n][k] == s[1..][..n - 1][k - 1];
        }
      }
    }
  }

  /** Drops the trailing spaces of `s`. */
  function TrimEnd(s: string): (r: string)
    ensures |r| <= |s|
    ensures r == [] || !IsSpace(r[|r| - 1])
  {
    if s == [] || !IsSpace(s[|s| - 1]) then s else TrimEnd(s[..|s| - 1])
  }

  /** What `TrimEnd` drops is a suffix of spaces: the result is a prefix of the input. */
  lemma {:induction false} TrimEndDropsSpaces(s: string)
    ensures TrimEnd(s) == s[..|TrimEnd(s)|]
    ensures AllSpaces(s[|TrimEnd(s)|..])
    decreases |s|
  {
    if s != [] && IsSpace(s[|s| - 1]) {
      var r := TrimEnd(s[..|s| - 1]);
      TrimEndDropsSpaces(s[..|s| - 1]);
      assert s[..|s| - 1][..|r|] == s[..|r|];
      assert s[|r|..] == s[..|s| - 1][|r|..] + [s[|s| - 1]];
    }
  }

  /** `s.trim()`: `s` without its leading and trailing spaces. */
  function Trim(s: string): (r: string)
    ensures Trimmed(r)
    ensures |r| <= |s|
  {
    var t := TrimStart(s);
    var r := TrimEnd(t);
    TrimEndDropsSpaces(t);
    assert r != [] ==> r[0] == t[0];
    r
  }

  /** What `trim` removes is spaces only: the result is an infix of the input with nothing
      but spaces before and after it. */
  lemma TrimRemovesOnlySpaces(s: string)
    ensures exists i :: SpacesAround(s, i, Trim(s))
  {
    var t := TrimStart(s);
    var r := TrimEnd(t);
    var i := |s| - |t|;
    TrimStartDropsSpaces(s);
    TrimEndDropsSpaces(t);
    assert Trim(s) == r;
    assert r == s[i..i + |r|];
    assert t[|r|..] == s[i + |r|..];
    assert SpacesAround(s, i, r);
  }

  /** A string that `trim` would not change is returned as it is. */
  lemma TrimOfTrimmed(s: string)
    requires Trimmed(s)
    ensures Trim(s) == s
  {
  }

  /** Trimming twice is trimming once. */
  lemma TrimIdempotent(s: string)
    ensures Trim(Trim(s)) == Trim(s)
  {
    TrimOfTrimmed(Trim(s));
  }

  /** The upper-case letters `toLowerCase` maps here: ASCII `A`-`Z` and Latin-1 `À`-`Þ` except `×`. */
  predicate IsUpper(c: char) {
    ('A' <= c <= 'Z') || ('\U{C0}' <= c <= '\U{DE}' && c != '\U{D7}')
  }

  /** The lower-case form of one character; every other character is left alone. */
  function LowerChar(c: char): (r: char)
    ensures !IsUpper(r)
    ensures !IsUpper(c) ==> r == c
    ensures IsUpper(c) ==> r as int == c as int + 32
  {
    if IsUpper(c) then (c as int + 32) as char else c
  }

  /** Lowering a character never turns it into white space or white space into something else. */
  lemma LowerCharKeepsSpaces(c: char)
    ensures IsSpace(LowerChar(c)) <==> IsSpace(c)
  {
  }

  /** `s.toLowerCase()`, one character at a time. */
  function ToLower(s: string): (r: string)
    ensures |r| == |s|
    ensures forall k :: 0 <= k < |r| ==> !IsUpper(r[k])
    ensures forall k :: 0 <= k < |s| ==> r[k] == LowerChar(s[k])
  {
    seq(|s|, k requires 0 <= k < |s| => LowerChar(s[k]))
  }

  /** A string with no upper-case letter is its own lower-case form. */
  lemma ToLowerOfLower(s: string)
    requires forall k :: 0 <= k < |s| ==> !IsUpper(s[k])
    ensures ToLower(s) == s
  {
  }

  /** The e-mail as both account forms read it: `value.trim().toLowerCase()`. */
  function NormalizeEmail(s: string): (r: string)
    ensures Trimmed(r)
    ensures forall k :: 0 <= k < |r| ==> !IsUpper(r[k])
    ensures |r| <= |s|
  {
    var t := Trim(s);
    var r := ToLower(t);
    if r != [] then
      LowerCharKeepsSpaces(t[0]);
      LowerCharKeepsSpaces(t[|t| - 1]);
      r
    else
      r
  }

  /** Normalising an already normalised e-mail changes nothing. */
  lemma {:induction false} NormalizeEmailIdempotent(s: string)
    ensures NormalizeEmail(NormalizeEmail(s)) == NormalizeEmail(s)
  {
    var n := NormalizeEmail(s);
    TrimOfTrimmed(n);
    ToLowerOfLower(n);
  }

  /** Lower-casing commutes with taking a slice. */
  lemma ToLowerSlice(s: string, a: int, b: int)
    requires 0 <= a <= b <= |s|
    ensures ToLower(s)[a..b] == ToLower(s[a..b])
  {
    var x, y := ToLower(s)[a..b], ToLower(s[a..b]);
    forall k | 0 <= k < b - a
      ensures x[k] == y[k]
    {
      assert s[a..b][k] == s[a + k];
    }
  }

  /** Lower-casing white space gives white space. */
  lemma ToLowerKeepsAllSpaces(s: string)
    requires AllSpaces(s)
    ensures AllSpaces(ToLower(s))
  {
    forall k | 0 <= k < |s|
      ensures IsSpace(ToLower(s)[k])
    {
      LowerCharKeepsSpaces(s[k]);
    }
  }

  /** Lower-casing keeps an infix with only spaces around it such an infix. */
  lemma ToLowerKeepsSpacesAround(s: string, i: int, r: string)
    requires SpacesAround(s, i, r)
    ensures SpacesAround(ToLower(s), i, ToLower(r))
  {
    var j := i + |r|;
    ToLowerSlice(s, i, j);
    ToLowerSlice(s, 0, i);
    ToLowerSlice(s, j, |s|);
    assert s[0..i] == s[..i] && s[j..|s|] == s[j..];
    assert ToLower(s)[0..i] == ToLower(s)[..i] && ToLower(s)[j..|s|] == ToLower(s)[j..];
    ToLowerKeepsAllSpaces(s[..i]);
    ToLowerKeepsAllSpaces(s[j..]);
  }

  /** The normalised e-mail is the input's own characters, lower-cased, with only white
      space cut from either end: an infix of the lower-cased input with only spaces around it. */
  lemma NormalizeEmailIsLoweredInfix(s: string)
    ensures exists i :: SpacesAround(ToLower(s), i, NormalizeEmail(s))
  {
    TrimRemovesOnlySpaces(s);
    var i :| SpacesAround(s, i, Trim(s));
    var r := NormalizeEmail(s);
    assert r == ToLower(Trim(s));
    ToLowerKeepsSpacesAround(s, i, Trim(s));
    assert SpacesAround(ToLower(s), i, r);
  }
}
